=== FILE: README.md ===
# Lead scraper core, modelled in Dafny

The system is a small Flask application (`app.py`). It collects candidate
landing-page URLs from three sources (Meta Ads Library, Reddit and LinkedIn
search pages). It fetches each candidate page and scores it as a sales lead
from the contact signals found on it. It returns all candidates sorted by lead
score.

This project models the deterministic core of that pipeline:

- `text.dfy` defines the Python string operations the core relies on:
  - substring `in`
  - `startswith`
  - ASCII `lower()`
  - `s[:n]`
  - in-order subsequences

  `Wrappers` holds the `Option` type.
- `url_policy.dfy` models `is_valid_url`, including the part of `urlparse` that
  strips the scheme and finds the network location (netloc), and the
  unmatched-bracket case in which `urlparse` raises.
- `copy_quality.dfy` models `calculate_copy_quality`, the five two-point checks
  on a page's text.
- `landing_page.dfy` models the record-building and scoring part of
  `analyze_landing_page`. A fetched page is given as already-parsed facts. The
  email and phone extractors and `urljoin` are passed in as functions the model
  does not interpret.
- `connector.dfy` models the link-collection loop shared by `scrape_meta_ads`,
  `scrape_reddit` and `scrape_linkedin`.
  - `Expected` is an independent reference definition: "the first
    `max_results` valid links, tagged".
  - `Collected` applies it to the hrefs read before the first one on which
    `is_valid_url` raises (an unmatched bracket in the netloc).
  - The loop `CollectLinks` is proved equal to `Collected`.
- `ranking.dfy` models the stable descending sort of `list.sort(key=...,
  reverse=True)`. It proves that sortedness plus stability leave exactly one
  possible output.
- `pipeline.dfy` models `scrape_all_platforms`:
  - the three connectors in their fixed order
  - concatenation without deduplication
  - one analysis per record, each from its own request (the fetch is indexed by
    the record's position as well as its URL), with the zero-valued record for
    a failed fetch
  - the final ranking

The code behaves as follows in a few places where a reader might expect
otherwise:

- Blocked domains are matched as substrings of the lower-cased host. So
  `https://box.com/` is rejected because its host contains `x.com`, and
  `https://smart.com/` is rejected because it contains `t.co`. See
  `UrlPolicy.BoxComRejected` and `UrlPolicy.SmartComRejected`.
- Nothing is deduplicated: the same URL found by two connectors is analysed and
  returned twice. See `Pipeline.DuplicatesSurviveMerge`.
- Contact links never go through `is_valid_url`. Any href whose lower-cased
  form contains a contact keyword is kept, whatever its host or scheme.
- `is_valid_url` has no blocked paths and does not reject `localhost` or hosts
  without a dot.
- The copy checks are plain "contains any keyword" tests, with no threshold on
  how often a keyword occurs.
- A URL with a single `/` after the scheme, such as `http:/facebook.com`, has
  an empty netloc, so the blocked-domain test passes it. See
  `UrlPolicy.SingleSlashAccepted`.
- An href whose netloc holds an unmatched bracket, such as `http://[x/`, makes
  `is_valid_url` raise. The connector's `except` clause then returns the
  records gathered so far and reads no further href. See
  `Connector.FailureKeepsEarlierRecords`.
- Copy quality is computed on the first 2000 characters of the text. That
  sample can never have a length inside the open interval (100, 2000) once the
  page text reaches 2000 characters, so long pages never get the length bonus.
- Meta tests `'http' in href`, while Reddit and LinkedIn test
  `href.startswith('http')`. Both guards collapse to `is_valid_url`, because it
  already demands the prefix. See `Connector.AcceptsIffValid`.
- The per-domain counter in the connector loop uses the same bound as the
  total cap. It therefore never rejects a link once the cap is positive.
- The lead score's cap at 10 never bites: the weights sum to exactly 10.

## Model

| member | source | states |
|---|---|---|
| Text.Lower | app.py:44 | `lower()` keeps the length, maps each character on its own, leaves no upper-case ASCII letter and changes no other character |
| Text.Contains | app.py:45 | a word occurs only in a string at least as long as itself |
| Text.ContainsIffOccurs | app.py:45 | `w in s` holds exactly when `w` occurs at some index of `s` |
| UrlPolicy.UntilDelimiter | app.py:44 | the netloc is a prefix of what follows `//`, holds no `/`, `?` or `#`, and stops only at one of them or at the end |
| UrlPolicy.AfterScheme | app.py:44 | what `urlparse` looks at after the scheme is a suffix of the URL |
| UrlPolicy.AfterSchemeName | app.py:44 | a scheme name (a letter, then letters, digits, `+`, `-` or `.`) and its `:` are stripped, whatever follows |
| UrlPolicy.AfterNonSchemeName | app.py:44 | when the text before the first `:` is not a scheme name, nothing is stripped |
| UrlPolicy.AfterNoColon | app.py:44 | a URL without `:` has no scheme to strip |
| UrlPolicy.Netloc | app.py:44 | the netloc holds no `/`, `?` or `#`, and a non-empty netloc occurs in the URL right after a `//` |
| UrlPolicy.NetlocOccurs | app.py:44 | the netloc read after the scheme's `//` occurs in the URL as `//` followed by the netloc |
| UrlPolicy.NetlocOfSchemeUrl | app.py:44 | for any scheme name, the netloc of `scheme://host` followed by nothing or by a `/`, `?` or `#` is exactly `host`, port and user information included |
| UrlPolicy.NetlocNeedsSlashes | app.py:44 | without `//` right after the scheme the netloc is empty |
| UrlPolicy.UnbalancedBracketRaises | app.py:41-45 | an `http://` or `https://` URL whose host holds `[` without `]` or `]` without `[` makes `is_valid_url` raise `ValueError` |
| UrlPolicy.RejectsWithoutHttpPrefix | app.py:42-43 | an empty URL, or one not starting with "http", is rejected |
| UrlPolicy.IsValidUrl | app.py:41-45 | every accepted URL starts with "http" |
| UrlPolicy.ValidIffNoBlockedOccurrence | app.py:44-45 | an http-prefixed URL on which `urlparse` does not raise is accepted exactly when no blocked domain occurs anywhere in its lower-cased netloc |
| UrlPolicy.RejectsBlockedSubstring | app.py:44-45 | a URL on which `urlparse` does not raise, whose netloc contains any blocked domain, is invalid whatever the path |
| UrlPolicy.BlockedHostRejected | app.py:41-45 | an `http://` or `https://` URL whose lower-cased host (any case, port or user information included) embeds a blocked domain, and which does not raise, is rejected whatever follows the host |
| UrlPolicy.CleanHostAccepted | app.py:41-45 | an `http://` or `https://` URL whose lower-cased host (any case, port or user information included) embeds no blocked domain, and which does not raise, is accepted whatever follows the host |
| UrlPolicy.EmptyHostClean | app.py:30-45 | no blocked domain is empty, so none occurs in an empty netloc |
| UrlPolicy.EmptyNetlocAccepted | app.py:41-45 | an http-prefixed URL with an empty netloc is accepted |
| UrlPolicy.SingleSlashAccepted | app.py:41-45 | `http:/` followed by anything but another `/` (`http:/facebook.com` included) is accepted |
| UrlPolicy.BoxComRejected | app.py:41-45 | `https://box.com/...` is rejected through the substring `x.com` |
| UrlPolicy.SmartComRejected | app.py:41-45 | `https://smart.com/...` is rejected through the substring `t.co` |
| UrlPolicy.ExampleItMissesDomain | app.py:30-34 | each blocked domain holds a character that `example.it` lacks, so it does not occur there |
| UrlPolicy.ExampleItHostClean | app.py:30-34 | none of the sixteen blocked domains occurs in `example.it` |
| UrlPolicy.ExampleItAccepted | app.py:41-45 | `https://example.it/` is accepted |
| CopyQuality.CalculateCopyQuality | app.py:62-92 | texts under 50 characters score 0; longer ones score two points per passed check (length in (100, 2000), call to action, benefit, urgency, social proof); the score is even and at most 10 |
| CopyQuality.KeywordChecksGrow | app.py:73-90 | appending text never makes a keyword check fail |
| CopyQuality.ScoreMonotoneInChecks | app.py:66-92 | for texts of at least 50 characters, passing a superset of checks never scores less |
| CopyQuality.AppendingKeywordNeverLowers | app.py:62-92 | appending text that wins a new keyword category never lowers the score, even when the length bonus is lost |
| CopyQuality.AppendingWithinLengthNeverLowers | app.py:62-92 | appending text that keeps the total under 2000 characters never lowers the score |
| LandingPage.LeadScore | app.py:134-150 | the lead score is the weighted sum of the five signals, and the sum never exceeds 10 |
| LandingPage.ContactLinks | app.py:113-118 | one resolved link per href that contains a contact keyword |
| LandingPage.LeadScoreExtremes | app.py:134-150 | the lead score is 3·emails + 3·phones + 2·contact links + form + call to action, lies in [0, 10], is 10 exactly when every signal is present and 0 exactly when none is |
| LandingPage.LeadScoreMonotone | app.py:134-139 | switching any one signal on never lowers the lead score |
| LandingPage.ZeroAnalysisIsZero | app.py:337-346 | the substitute record has empty lists, false flags and zero scores, and its score agrees with its contents |
| LandingPage.ContactHrefsSnoc | app.py:114-118 | reading one more anchor keeps it exactly when its lower-cased href contains a contact keyword, once per occurrence, so repeated anchors are kept each time |
| LandingPage.ContactLinksSnoc | app.py:114-118 | reading one more anchor appends its resolved link exactly when it is a contact href |
| LandingPage.ContactLinksCharacterised | app.py:113-118 | the contact links are the hrefs containing a contact keyword (case-insensitively), kept in document order, each resolved against the page URL; no such href is missed |
| LandingPage.Analyze | app.py:108-151 | the record keeps the first 5 emails, the first 5 phones and the first 3 contact links; it copies the form and schema flags; the call-to-action flag is set exactly when some element matched; the copy score is that of the first 2000 characters and never includes the length bonus for long texts; the lead score agrees with the uncapped lists |
| LandingPage.LeadScoreIgnoresSchemaAndCopy | app.py:121-150 | the schema flag and the copy-quality score do not affect the lead score |
| LandingPage.EmailPhoneFormScoresSeven | app.py:134-139 | a page with emails, phones and a form but no contact link or call to action scores 7 |
| Connector.AcceptsIffValid | app.py:185 | each connector's guard (Meta's `'http' in href`, the others' prefix test) accepts exactly the hrefs `is_valid_url` accepts |
| Connector.PreCheckOfHttp | app.py:185 | every connector's pre-check lets an http-prefixed href through to `is_valid_url` |
| Connector.GuardRaises | app.py:185 | the guard raises exactly when `is_valid_url` would, whichever pre-check the connector uses |
| Connector.FirstFailureIsFirst | app.py:183-186 | the guard raises on no href before the first failure, and on the href at it when there is one |
| Connector.FirstFailureAtMost | app.py:183-186 | an href on which the guard raises bounds the first failure from above |
| Connector.FirstFailurePast | app.py:183-186 | an href read without a raise, at or before the first failure, lies before it |
| Connector.FirstFailureAfter | app.py:183-186 | after hrefs that do not raise, the first raising href is the first failure |
| Connector.Admits | app.py:185 | the guard evaluated for one href agrees with `is_valid_url` |
| Connector.ValidLinks | app.py:183-186 | the valid links are no more than the hrefs |
| Connector.ValidLinksSnoc | app.py:183-186 | reading one more href adds it to the valid links exactly when `is_valid_url` accepts it |
| Connector.ValidLinksOfPrefix | app.py:183-186 | the valid links of an early part of the page are a prefix of those of the whole page |
| Connector.Expected | app.py:183-205 | a connector returns no more records than `max_results` allows and no more than the page has hrefs |
| Connector.Slice | app.py:205 | `results[:n]` is a prefix of the list, `n` long when that fits, and for negative `n` drops `-n` from the end |
| Connector.ValidLinksSound | app.py:183-186 | every link the loop considers valid passes `is_valid_url`, and no href passing it is missed |
| Connector.ValidLinksInPageOrder | app.py:183-186 | the valid links are an in-order subsequence of the page's hrefs |
| Connector.Collected | app.py:183-205 | a connector returns at most `max_results` records |
| Connector.CollectedWithoutFailure | app.py:183-205 | on a page where the guard never raises, a connector returns the expected records of the whole page |
| Connector.FailureKeepsEarlierRecords | app.py:183-205 | an href on which the guard raises ends the scan: the records of the hrefs before it are returned, and nothing after it counts |
| Connector.ExpectedShape | app.py:183-205 | a connector returns at most `max_results` records, falls short only when the page has no more valid links, and tags every record, each passing `is_valid_url`, with its platform and the query |
| Connector.ExpectedInPageOrder | app.py:183-194 | a connector's URLs appear in the same order as on the page |
| Connector.ExpectedWithinCaps | app.py:187-205 | the final `[:max_results]` has nothing to drop, and no host reaches more than `max_results` records, so the per-domain counter never rejects a link |
| Connector.SnocKeeps | app.py:184-194 | below the cap, a valid href adds exactly one record, tagged with its platform and the query |
| Connector.SnocSkips | app.py:185 | an href that `is_valid_url` rejects adds no record |
| Connector.StepCapped | app.py:187-197 | with a cap of zero or less, no href is ever recorded |
| Connector.Visit | app.py:184-194 | one pass of the loop body turns the records for the first `i` hrefs into those for the first `i + 1`, and keeps every per-domain count within the records so far |
| Connector.Finish | app.py:196-205 | when the loop stops, at the end of the page, at a raising href or at the cap, the final slice equals the collected records |
| Connector.StepFull | app.py:196-197 | once the cap is reached, breaking out of the loop loses nothing the rest of the page could add |
| Connector.CollectLinks | app.py:183-205 | the loop with its per-domain counter, its early exit, its `except` clause and the final slice returns exactly the first `max_results` valid hrefs read before the guard raises, in page order, tagged |
| Ranking.SortByKey | app.py:349 | the ranking is a permutation of its input, ordered by non-increasing key |
| Ranking.SortStable | app.py:349 | leads with equal scores keep their original relative order |
| Ranking.SortedStableUnique | app.py:349 | two sequences that are both sorted by descending key and agree key by key on order are equal, so the stable sort's output is unique |
| Pipeline.ScrapeConnector | app.py:160-205 | a connector whose browser session failed contributes no records; otherwise it contributes the records collected before any failure |
| Pipeline.Concat | app.py:319-321 | the merged list is as long as all connector outputs together |
| Pipeline.ScrapeConnectors | app.py:312-321 | the three connectors run in the order Meta, Reddit, LinkedIn, and their records are concatenated in that order |
| Pipeline.ConcatKeepsAll | app.py:319-321 | the merged list is as long as all connector outputs together and holds each URL as often as they do |
| Pipeline.MergedLength | app.py:318-321 | the merged list holds exactly as many leads as the three connectors returned records |
| Pipeline.DuplicatesSurviveMerge | app.py:319-321 | a URL found by two connectors appears at least twice in the merged list |
| Pipeline.Gather | app.py:326-331 | there is one analysis per record, in record order, each from its own request for that record's URL |
| Pipeline.Attach | app.py:333-346 | each record keeps its place and gets its analysis, or the zero record when the analysis is missing |
| Pipeline.Enrich | app.py:326-346 | every merged record keeps its place and its candidate, carries the analysis of its own request for its page or the zero record after a failed fetch, and has a consistent score in [0, 10] |
| Pipeline.Rank | app.py:349 | the ranking is a permutation, is in non-increasing score order, and keeps equal-score leads in merge order |
| Pipeline.ScrapeAllPlatforms | app.py:311-351 | the result holds every connector record once, with nothing deduplicated, sorted by non-increasing lead score, with equal scores in Meta, Reddit, LinkedIn merge order; every score is consistent and in [0, 10] |
| Pipeline.FailedPageKeptAtZero | app.py:333-349 | a lead whose page could not be fetched stays in the ranked output with score 0 |

## Left out

- The Flask routes, the global `scraped_data` store and the HTML template are the web layer, outside the scoring core.
- The Playwright sessions, search-URL building, scrolling and waiting are browser I/O. A rendered page is given as its anchors' hrefs.
- The page fetch (aiohttp, the 15-second timeout, the status test) and BeautifulSoup parsing are network and parser I/O. A fetch is a function returning `None` for a non-200 status or an error, and a fetched page is a `Page` of already-parsed facts.
- `extract_emails`, `extract_phones` and `urljoin` are uninterpreted functions. Their regular expressions are outside the model, and their `list(set(...))` has no defined order in Python.
- The call-to-action element search (the class regex `cta|button|btn`) is represented by a count of matching elements.
- `asyncio.gather` concurrency is modelled as sequential evaluation. `gather` returns results in task order, which is all the merge depends on.
- `found_at` timestamps, random user agents and logging come from the clock, randomness and I/O. They do not affect what is returned.
- Connector.CollectLinks: a browser failure is modelled as happening before any link was read, since the session's navigation, scrolling and parsing all come before the link loop. Browser errors, including LinkedIn's `PlaywrightTimeout`, cannot be seen from the hrefs. The only failure inside the loop that is modelled is `is_valid_url` raising; see the `UrlPolicy.IsValidUrl` line for the raising cases left out.
- UrlPolicy.IsValidUrl: of the cases where `urlparse` raises `ValueError`, only an unmatched bracket in the netloc is modelled (`UrlPolicy.ValidityRaises`). Two other cases are not modelled. Newer Python versions also reject a bracketed host that is not a valid IPv6 or IPvFuture address. A non-ASCII netloc is also rejected when its NFKC normal form gains a `/`, `?`, `#`, `@` or `:` that was not there before. `urlsplit` also removes tab, carriage-return and line-feed characters anywhere in the URL, which is not modelled. Its stripping of leading control characters and spaces cannot change an http-prefixed URL. On a URL where `ValidityRaises` holds, the predicate's own value is never used.
- LandingPage.Analyze: `urljoin` raising `ValueError` (for an href such as `http://[contact`) would turn the whole analysis into `None`, and so the lead into the zero record. `resolve` is modelled as a total function, so that path is not modelled.
- Text.Lower: lower-cases ASCII letters only. Python's full Unicode case mapping is not modelled.

=== FILE: connector.dfy ===
/**
  The link-collection loop shared by the three source connectors
  (`scrape_meta_ads`, `scrape_reddit`, `scrape_linkedin`; app.py:183-205,
  233-255, 284-309). Browser automation is outside the model: the rendered
  page is given as the sequence of its anchors' hrefs, or as `None` when the
  browser session failed before any link was read.
 */
module Connector {
  import opened Text
  import opened Wrappers
  import UrlPolicy

  /** The result cap every connector is called with (app.py:156, 207, 257). */
  const DefaultMaxResults := 200

  /** The three sources, in the order `scrape_all_platforms` starts them. */
  datatype Platform = MetaAds | Reddit | LinkedIn
  {
    /** The constant `platform` tag of each connector's records. */
    function Tag(): string
    {
      match this
      case MetaAds => "Meta Ads"
      case Reddit => "Reddit"
      case LinkedIn => "LinkedIn"
    }

    /** The check applied before `is_valid_url`: Meta tests `'http' in href`, the others `href.startswith('http')`. */
    predicate PreCheck(href: string)
    {
      match this
      case MetaAds => Contains(href, "http")
      case _ => StartsWith(href, "http")
    }
  }

  /** A discovered link: the record a connector appends (without its `found_at` timestamp). */
  datatype Candidate = Candidate(platform: string, url: string, query: string)

  /** The guard of app.py:185 (and 235, 286). */
  predicate Accepts(p: Platform, href: string)
  {
    |href| > 0 && p.PreCheck(href) && UrlPolicy.IsValidUrl(href)
  }

  /** The connectors' different pre-checks make no difference: each guard is exactly `is_valid_url`. */
  lemma AcceptsIffValid(p: Platform, href: string)
    ensures Accepts(p, href) <==> UrlPolicy.IsValidUrl(href)
  {
    if UrlPolicy.IsValidUrl(href) {
      PreCheckOfHttp(p, href);
    }
  }

  /** Every pre-check lets an http-prefixed href through to `is_valid_url`. */
  lemma PreCheckOfHttp(p: Platform, href: string)
    requires StartsWith(href, "http")
    ensures |href| > 0 && p.PreCheck(href)
  {
    OccurrenceContained(href, "http", 0);
  }

  /** The guard of app.py:185 (235, 286) raises exactly when `is_valid_url` does, whichever pre-check runs first. */
  method GuardRaises(p: Platform, href: string) returns (raised: bool)
    ensures raised <==> UrlPolicy.ValidityRaises(href)
  {
    raised := |href| > 0 && p.PreCheck(href) && UrlPolicy.ValidityRaises(href);
    if UrlPolicy.ValidityRaises(href) {
      PreCheckOfHttp(p, href);
    }
  }

  /** The position of the first href on which the guard raises, or `|hrefs|` when none does. */
  function FirstFailure(hrefs: seq<string>): (r: nat)
    ensures r <= |hrefs|
  {
    if |hrefs| == 0 || UrlPolicy.ValidityRaises(hrefs[0]) then 0 else 1 + FirstFailure(hrefs[1..])
  }

  /** The guard raises on no href before `FirstFailure`, and on the href at it, if there is one. */
  lemma {:induction false} FirstFailureIsFirst(hrefs: seq<string>)
    ensures forall k :: 0 <= k < FirstFailure(hrefs) ==> !UrlPolicy.ValidityRaises(hrefs[k])
    ensures FirstFailure(hrefs) < |hrefs| ==> UrlPolicy.ValidityRaises(hrefs[FirstFailure(hrefs)])
  {
    if |hrefs| > 0 && !UrlPolicy.ValidityRaises(hrefs[0]) {
      FirstFailureIsFirst(hrefs[1..]);
      assert forall k :: 0 < k < |hrefs| ==> hrefs[1..][k - 1] == hrefs[k];
    }
  }

  /** A raising href bounds the first failure from above. */
  lemma {:induction false} FirstFailureAtMost(hrefs: seq<string>, i: nat)
    requires i < |hrefs| && UrlPolicy.ValidityRaises(hrefs[i])
    ensures FirstFailure(hrefs) <= i
  {
    if i > 0 && !UrlPolicy.ValidityRaises(hrefs[0]) {
      assert hrefs[1..][i - 1] == hrefs[i];
      FirstFailureAtMost(hrefs[1..], i - 1);
    }
  }

  /** An href read without a raise, at or before the first failure, lies before it. */
  lemma {:induction false} FirstFailurePast(hrefs: seq<string>, i: nat)
    requires i <= FirstFailure(hrefs) && i < |hrefs| && !UrlPolicy.ValidityRaises(hrefs[i])
    ensures i < FirstFailure(hrefs)
  {
    if i > 0 {
      assert hrefs[1..][i - 1] == hrefs[i];
      FirstFailurePast(hrefs[1..], i - 1);
    }
  }

  /** The first failure of `pre + [h] + post` is at `h` when the guard raises on `h` and on nothing in `pre`. */
  lemma {:induction false} FirstFailureAfter(pre: seq<string>, h: string, post: seq<string>)
    requires forall k :: 0 <= k < |pre| ==> !UrlPolicy.ValidityRaises(pre[k])
    requires UrlPolicy.ValidityRaises(h)
    ensures FirstFailure(pre + [h] + post) == |pre|
  {
    if |pre| > 0 {
      assert (pre + [h] + post)[0] == pre[0];
      assert (pre + [h] + post)[1..] == pre[1..] + [h] + post;
      FirstFailureAfter(pre[1..], h, post);
    } else {
      assert (pre + [h] + post)[0] == h;
    }
  }

  /** The hrefs passing `is_valid_url`, in page order. */
  function ValidLinks(hrefs: seq<string>): (r: seq<string>)
    ensures |r| <= |hrefs|
  {
    if |hrefs| == 0 then []
    else if UrlPolicy.IsValidUrl(hrefs[0]) then [hrefs[0]] + ValidLinks(hrefs[1..])
    else ValidLinks(hrefs[1..])
  }

  /** Every valid link passes `is_valid_url`, and no href passing it is missed. */
  lemma {:induction false} ValidLinksSound(hrefs: seq<string>)
    ensures forall i :: 0 <= i < |ValidLinks(hrefs)| ==> UrlPolicy.IsValidUrl(ValidLinks(hrefs)[i])
    ensures forall h :: h in hrefs && UrlPolicy.IsValidUrl(h) ==> h in ValidLinks(hrefs)
  {
    if |hrefs| > 0 {
      ValidLinksSound(hrefs[1..]);
      assert forall h :: h in hrefs ==> h == hrefs[0] || h in hrefs[1..];
    }
  }

  /** The valid links keep the page order. */
  lemma {:induction false} ValidLinksInPageOrder(hrefs: seq<string>)
    ensures IsSubsequence(ValidLinks(hrefs), hrefs)
  {
    if |hrefs| > 0 {
      ValidLinksInPageOrder(hrefs[1..]);
      if UrlPolicy.IsValidUrl(hrefs[0]) {
        assert ([hrefs[0]] + ValidLinks(hrefs[1..]))[1..] == ValidLinks(hrefs[1..]);
      } else {
        // The greedy match cannot pair an invalid href with a valid link.
        ValidLinksSound(hrefs[1..]);
      }
    }
  }

  /** Reading one more href extends the valid links by that href or not at all. */
  lemma {:induction false} ValidLinksSnoc(hrefs: seq<string>, h: string)
    ensures ValidLinks(hrefs + [h]) == ValidLinks(hrefs) + (if UrlPolicy.IsValidUrl(h) then [h] else [])
  {
    if |hrefs| == 0 {
      assert hrefs + [h] == [h];
    } else {
      assert (hrefs + [h])[1..] == hrefs[1..] + [h];
      ValidLinksSnoc(hrefs[1..], h);
    }
  }

  /** The valid links of a prefix of the page are a prefix of the page's valid links. */
  lemma {:induction false} ValidLinksOfPrefix(hrefs: seq<string>, n: nat)
    requires n <= |hrefs|
    ensures IsPrefix(ValidLinks(hrefs[..n]), ValidLinks(hrefs))
  {
    if n > 0 {
      assert hrefs[..n][1..] == hrefs[1..][..n - 1];
      ValidLinksOfPrefix(hrefs[1..], n - 1);
    }
  }

  /** The cap as an amount: a negative `max_results` behaves like 0. */
  function Cap(maxResults: int): nat
  {
    if maxResults < 0 then 0 else maxResults
  }

  /** Tag each URL with the connector's platform and the query. */
  function Tagged(p: Platform, query: string, urls: seq<string>): (r: seq<Candidate>)
    ensures |r| == |urls|
    ensures forall i :: 0 <= i < |r| ==> r[i] == Candidate(p.Tag(), urls[i], query)
  {
    if |urls| == 0 then [] else [Candidate(p.Tag(), urls[0], query)] + Tagged(p, query, urls[1..])
  }

  /** The URLs of a sequence of records, in order. */
  function Urls(cs: seq<Candidate>): (r: seq<string>)
    ensures |r| == |cs|
    ensures forall i :: 0 <= i < |cs| ==> r[i] == cs[i].url
  {
    if |cs| == 0 then [] else [cs[0].url] + Urls(cs[1..])
  }

  lemma UrlsOfTagged(p: Platform, query: string, urls: seq<string>)
    ensures Urls(Tagged(p, query, urls)) == urls
  {
  }

  /** What a connector returns from a page: its first `max_results` valid links, tagged. */
  function Expected(p: Platform, query: string, hrefs: seq<string>, maxResults: int): (r: seq<Candidate>)
    ensures |r| <= Cap(maxResults) && |r| <= |hrefs|
  {
    Tagged(p, query, Take(ValidLinks(hrefs), Cap(maxResults)))
  }

  /**
    What a connector returns from a page: the expected records of the hrefs
    read before the first one on which the guard raises. The `except` clause
    (app.py:201-205) returns the records gathered until then.
   */
  function Collected(p: Platform, query: string, hrefs: seq<string>, maxResults: int): (r: seq<Candidate>)
    ensures |r| <= Cap(maxResults)
  {
    Expected(p, query, hrefs[..FirstFailure(hrefs)], maxResults)
  }

  /** On a page where the guard never raises, a connector returns the expected records of the whole page. */
  lemma CollectedWithoutFailure(p: Platform, query: string, hrefs: seq<string>, maxResults: int)
    requires forall k :: 0 <= k < |hrefs| ==> !UrlPolicy.ValidityRaises(hrefs[k])
    ensures Collected(p, query, hrefs, maxResults) == Expected(p, query, hrefs, maxResults)
  {
    FirstFailureIsFirst(hrefs);
    assert hrefs[..FirstFailure(hrefs)] == hrefs;
  }

  /**
    An href on which the guard raises ends the scan: the records of the hrefs
    before it are returned, and nothing after it is read.
   */
  lemma FailureKeepsEarlierRecords(p: Platform, query: string, pre: seq<string>, h: string, post: seq<string>, maxResults: int)
    requires forall k :: 0 <= k < |pre| ==> !UrlPolicy.ValidityRaises(pre[k])
    requires UrlPolicy.ValidityRaises(h)
    ensures Collected(p, query, pre + [h] + post, maxResults) == Expected(p, query, pre, maxResults)
  {
    var hrefs := pre + [h] + post;
    FirstFailureAfter(pre, h, post);
    assert hrefs[..|pre|] == pre;
  }

  /**
    A connector returns at most `max_results` records, falls short only when
    the page holds no more valid links, and tags every record, each passing
    `is_valid_url`, with its platform and the query.
   */
  lemma ExpectedShape(p: Platform, query: string, hrefs: seq<string>, maxResults: int)
    ensures var r := Expected(p, query, hrefs, maxResults);
      && |r| <= Cap(maxResults)
      && (|r| == Cap(maxResults) || |r| == |ValidLinks(hrefs)|)
      && forall i :: 0 <= i < |r| ==>
           UrlPolicy.IsValidUrl(r[i].url) && r[i].platform == p.Tag() && r[i].query == query
  {
    ValidLinksSound(hrefs);
  }

  /** A connector's URLs are an in-order subsequence of the page's hrefs. */
  lemma ExpectedInPageOrder(p: Platform, query: string, hrefs: seq<string>, maxResults: int)
    ensures IsSubsequence(Urls(Expected(p, query, hrefs, maxResults)), hrefs)
  {
    ValidLinksInPageOrder(hrefs);
    var kept := Take(ValidLinks(hrefs), Cap(maxResults));
    SubsequencePrefix(ValidLinks(hrefs), hrefs, |kept|);
    UrlsOfTagged(p, query, kept);
  }

  /**
    The final `[:max_results]` of a connector has nothing to drop, and no host
    reaches more than `max_results` records, so the per-domain counter never
    rejects a link.
   */
  lemma ExpectedWithinCaps(p: Platform, query: string, hrefs: seq<string>, maxResults: int)
    ensures Slice(Expected(p, query, hrefs, maxResults), maxResults) == Expected(p, query, hrefs, maxResults)
    ensures forall host :: HostCount(Expected(p, query, hrefs, maxResults), host) <= Cap(maxResults)
  {
  }

  /** How many records point at network location `host` (the key of `seen_domains`). */
  function HostCount(results: seq<Candidate>, host: string): (n: nat)
    ensures n <= |results|
  {
    if |results| == 0 then 0
    else (if UrlPolicy.Netloc(results[0].url) == host then 1 else 0) + HostCount(results[1..], host)
  }

  /** Python's `s[:n]`, negative `n` counting from the end. */
  function Slice<T>(s: seq<T>, n: int): (r: seq<T>)
    ensures IsPrefix(r, s)
    ensures n >= 0 ==> |r| == if |s| < n then |s| else n
    ensures n < 0 ==> |r| == if |s| + n <= 0 then 0 else |s| + n
  {
    if n >= 0 then Take(s, n)
    else if |s| + n <= 0 then []
    else s[..|s| + n]
  }

  /**
    The loop of app.py:183-197, the `except` clause of app.py:201-202 and the
    return of app.py:205, with the per-domain counter kept in a map that
    defaults to 0. The result holds the first `max_results` hrefs passing
    `is_valid_url` among those read before the guard raises, in page order,
    each tagged with the platform and the query; duplicates are not removed;
    the per-domain check never rejects a link, since no domain can reach the
    total cap first.
   */
  method CollectLinks(p: Platform, query: string, hrefs: seq<string>, maxResults: int)
    returns (results: seq<Candidate>)
    ensures results == Collected(p, query, hrefs, maxResults)
  {
    results := [];
    var seen: map<string, nat> := map[];
    var i := 0;
    while i < |hrefs|
      invariant 0 <= i <= FirstFailure(hrefs)
      invariant results == Expected(p, query, hrefs[..i], maxResults)
      invariant i > 0 ==> |results| < maxResults
      invariant forall host :: host in seen ==> seen[host] <= |results|
    {
      var raised := GuardRaises(p, hrefs[i]);
      if raised {
        // `is_valid_url` raised `ValueError`; the `except` clause leaves the loop.
        FirstFailureAtMost(hrefs, i);
        break;
      }
      FirstFailurePast(hrefs, i);
      results, seen := Visit(p, query, hrefs, i, maxResults, results, seen);
      i := i + 1;
      if |results| >= maxResults {
        break;
      }
    }
    Finish(p, query, hrefs, i, maxResults, results);
    results := Slice(results, maxResults);
  }

  /**
    Whether the loop ran off the page, stopped at a raising href or broke out
    at the cap, the final slice yields the collected records.
   */
  lemma Finish(p: Platform, query: string, hrefs: seq<string>, i: nat, maxResults: int, results: seq<Candidate>)
    requires i <= FirstFailure(hrefs) && results == Expected(p, query, hrefs[..i], maxResults)
    requires i == FirstFailure(hrefs) || |results| >= maxResults
    ensures Slice(results, maxResults) == Collected(p, query, hrefs, maxResults)
  {
    var read := hrefs[..FirstFailure(hrefs)];
    assert read[..i] == hrefs[..i];
    if i < FirstFailure(hrefs) {
      StepFull(p, query, read, i, maxResults);
    } else {
      assert read == hrefs[..i];
    }
    ExpectedWithinCaps(p, query, hrefs[..i], maxResults);
  }

  /**
    One pass of the loop body (app.py:184-194): the href at `i` is appended
    exactly when it is valid and the cap is not yet reached, and no domain
    counter exceeds the number of records.
   */
  method Visit(p: Platform, query: string, hrefs: seq<string>, i: nat, maxResults: int,
               results: seq<Candidate>, seen: map<string, nat>)
    returns (results': seq<Candidate>, seen': map<string, nat>)
    requires i < |hrefs|
    requires results == Expected(p, query, hrefs[..i], maxResults)
    requires i > 0 ==> |results| < maxResults
    requires forall host :: host in seen ==> seen[host] <= |results|
    ensures results' == Expected(p, query, hrefs[..i + 1], maxResults)
    ensures forall host :: host in seen' ==> seen'[host] <= |results'|
  {
    results', seen' := results, seen;
    var href := hrefs[i];
    assert hrefs[..i + 1] == hrefs[..i] + [href];
    var admitted := Admits(p, href);
    if admitted {
      var host := UrlPolicy.Netloc(href);
      var count := if host in seen then seen[host] else 0;
      if count < maxResults {
        SnocKeeps(p, query, hrefs[..i], href, maxResults);
        results' := results + [Candidate(p.Tag(), href, query)];
        seen' := seen[host := count + 1];
      } else {
        // Only reachable when the cap is 0 or negative: no host can reach a positive cap first.
        StepCapped(p, query, hrefs, i + 1, maxResults);
      }
    } else {
      SnocSkips(p, query, hrefs[..i], href, maxResults);
    }
  }

  /** The guard of app.py:185 (235, 286) for one href; by `AcceptsIffValid` it is `is_valid_url`. */
  method Admits(p: Platform, href: string) returns (ok: bool)
    ensures ok <==> UrlPolicy.IsValidUrl(href)
  {
    ok := |href| > 0 && p.PreCheck(href) && UrlPolicy.IsValidUrl(href);
    AcceptsIffValid(p, href);
  }

  lemma TaggedSnoc(p: Platform, query: string, urls: seq<string>, u: string)
    ensures Tagged(p, query, urls + [u]) == Tagged(p, query, urls) + [Candidate(p.Tag(), u, query)]
  {
    var l := Tagged(p, query, urls + [u]);
    var r := Tagged(p, query, urls) + [Candidate(p.Tag(), u, query)];
    assert |l| == |r|;
    assert forall k :: 0 <= k < |l| ==> l[k] == r[k];
  }

  /** A valid href read below the cap is appended. */
  lemma SnocKeeps(p: Platform, query: string, pre: seq<string>, h: string, maxResults: int)
    requires UrlPolicy.IsValidUrl(h)
    requires |Expected(p, query, pre, maxResults)| < maxResults
    ensures Expected(p, query, pre + [h], maxResults) == Expected(p, query, pre, maxResults) + [Candidate(p.Tag(), h, query)]
  {
    var v := ValidLinks(pre);
    ValidLinksSnoc(pre, h);
    assert ValidLinks(pre + [h]) == v + [h];
    assert |Take(v, Cap(maxResults))| < Cap(maxResults);
    assert Take(v, Cap(maxResults)) == v;
    assert Take(v + [h], Cap(maxResults)) == v + [h];
    TaggedSnoc(p, query, v, h);
  }

  /** An invalid href is skipped. */
  lemma SnocSkips(p: Platform, query: string, pre: seq<string>, h: string, maxResults: int)
    requires !UrlPolicy.IsValidUrl(h)
    ensures Expected(p, query, pre + [h], maxResults) == Expected(p, query, pre, maxResults)
  {
    ValidLinksSnoc(pre, h);
    assert ValidLinks(pre + [h]) == ValidLinks(pre);
  }

  /** With a cap of at most 0 nothing is ever kept. */
  lemma StepCapped(p: Platform, query: string, hrefs: seq<string>, i: nat, maxResults: int)
    requires i <= |hrefs| && maxResults <= 0
    ensures Expected(p, query, hrefs[..i], maxResults) == []
  {
  }

  /** Once a page prefix fills the cap, the rest of the page changes nothing. */
  lemma StepFull(p: Platform, query: string, hrefs: seq<string>, i: nat, maxResults: int)
    requires i <= |hrefs| && |Expected(p, query, hrefs[..i], maxResults)| >= maxResults
    ensures Expected(p, query, hrefs[..i], maxResults) == Expected(p, query, hrefs, maxResults)
  {
    TakeOfLongerPrefix(ValidLinks(hrefs[..i]), ValidLinks(hrefs), Cap(maxResults), hrefs, i);
  }

  /** Once the valid links of a page prefix fill the cap, the rest of the page changes nothing. */
  lemma TakeOfLongerPrefix(a: seq<string>, b: seq<string>, n: nat, hrefs: seq<string>, i: nat)
    requires i <= |hrefs| && a == ValidLinks(hrefs[..i]) && b == ValidLinks(hrefs)
    requires |Take(a, n)| >= n
    ensures Take(a, n) == Take(b, n)
  {
    ValidLinksOfPrefix(hrefs, i);
  }
}

=== FILE: copy_quality.dfy ===
/**
  The copy-quality heuristic (`calculate_copy_quality`, app.py:62-92): five
  checks on a page's text, worth two points each, scored only for texts of at
  least 50 characters.
 */
module CopyQuality {
  import opened Text

  const CtaWords: seq<string> :=
    ["buy", "get", "try", "start", "join", "subscribe", "download", "learn", "discover", "free"]
  const BenefitWords: seq<string> :=
    ["save", "increase", "improve", "boost", "grow", "reduce", "easy", "fast", "simple"]
  const UrgencyWords: seq<string> :=
    ["now", "today", "limited", "offer", "hurry", "expires"]
  const SocialProofWords: seq<string> :=
    ["customers", "reviews", "rated", "trusted"]

  /** Texts shorter than this score 0. */
  const MinLength := 50

  /** The outcome of each of the five checks. */
  datatype Checks = Checks(lengthInRange: bool, callToAction: bool, benefit: bool, urgency: bool, socialProof: bool)
  {
    /** How many of the five checks passed. */
    function Passed(): (n: nat)
      ensures n <= 5
    {
      (if lengthInRange then 1 else 0) + (if callToAction then 1 else 0) + (if benefit then 1 else 0)
      + (if urgency then 1 else 0) + (if socialProof then 1 else 0)
    }

    /** Every check passed here also passes in `other`. */
    predicate Below(other: Checks)
    {
      && (lengthInRange ==> other.lengthInRange)
      && (callToAction ==> other.callToAction)
      && (benefit ==> other.benefit)
      && (urgency ==> other.urgency)
      && (socialProof ==> other.socialProof)
    }
  }

  /** The five checks of app.py:69-90 applied to `text`. */
  function ChecksOf(text: string): Checks
  {
    var lower := Lower(text);
    Checks(
      100 < |text| < 2000,
      ContainsAny(lower, CtaWords),
      ContainsAny(lower, BenefitWords),
      ContainsAny(lower, UrgencyWords),
      ContainsAny(lower, SocialProofWords))
  }

  /** `calculate_copy_quality`, step by step as the source accumulates it. */
  function CalculateCopyQuality(text: string): (r: nat)
    ensures |text| < MinLength ==> r == 0
    ensures |text| >= MinLength ==> r == 2 * ChecksOf(text).Passed()
    ensures r <= 10 && r % 2 == 0
  {
    if |text| == 0 || |text| < MinLength then 0
    else
      var lower := Lower(text);
      var s1 := if 100 < |text| < 2000 then 2 else 0;
      var s2 := if ContainsAny(lower, CtaWords) then s1 + 2 else s1;
      var s3 := if ContainsAny(lower, BenefitWords) then s2 + 2 else s2;
      var s4 := if ContainsAny(lower, UrgencyWords) then s3 + 2 else s3;
      var s5 := if ContainsAny(lower, SocialProofWords) then s4 + 2 else s4;
      if s5 < 10 then s5 else 10
  }

  /** Appending text never makes a keyword check fail. */
  lemma KeywordChecksGrow(t: string, u: string)
    ensures ChecksOf(t).callToAction ==> ChecksOf(t + u).callToAction
    ensures ChecksOf(t).benefit ==> ChecksOf(t + u).benefit
    ensures ChecksOf(t).urgency ==> ChecksOf(t + u).urgency
    ensures ChecksOf(t).socialProof ==> ChecksOf(t + u).socialProof
  {
    LowerAppend(t, u);
    var lt, lu := Lower(t), Lower(u);
    if ContainsAny(lt, CtaWords) { ContainsAnyAppend(lt, lu, CtaWords); }
    if ContainsAny(lt, BenefitWords) { ContainsAnyAppend(lt, lu, BenefitWords); }
    if ContainsAny(lt, UrgencyWords) { ContainsAnyAppend(lt, lu, UrgencyWords); }
    if ContainsAny(lt, SocialProofWords) { ContainsAnyAppend(lt, lu, SocialProofWords); }
  }

  /** The score is monotone in the checks passed. */
  lemma ScoreMonotoneInChecks(t: string, u: string)
    requires |t| >= MinLength && |u| >= MinLength
    requires ChecksOf(t).Below(ChecksOf(u))
    ensures CalculateCopyQuality(t) <= CalculateCopyQuality(u)
  {
  }

  /** `after` passes some keyword check that `before` fails. */
  predicate WinsCategory(before: Checks, after: Checks)
  {
    || (!before.callToAction && after.callToAction)
    || (!before.benefit && after.benefit)
    || (!before.urgency && after.urgency)
    || (!before.socialProof && after.socialProof)
  }

  /**
    Appending text that newly wins a keyword category never lowers the score:
    the keyword checks already passed keep passing, and the gained category
    outweighs a length bonus the longer text may lose.
   */
  lemma AppendingKeywordNeverLowers(t: string, u: string)
    requires WinsCategory(ChecksOf(t), ChecksOf(t + u))
    ensures CalculateCopyQuality(t + u) >= CalculateCopyQuality(t)
  {
    KeywordChecksGrow(t, u);
  }

  /** Appending text to a text that is not too long to lose the length bonus never lowers the score. */
  lemma AppendingWithinLengthNeverLowers(t: string, u: string)
    requires |t + u| < 2000
    ensures CalculateCopyQuality(t + u) >= CalculateCopyQuality(t)
  {
    KeywordChecksGrow(t, u);
  }
}

=== FILE: landing_page.dfy ===
/**
  The scoring and record-building part of `analyze_landing_page`
  (app.py:113-150). Fetching and HTML parsing are outside the model: a fetched
  page is given as a `Page` of already-parsed facts, and the regex extractors
  and `urljoin` are supplied as functions in an `Extractors` value.
 */
module LandingPage {
  import opened Text
  import CopyQuality

  /** `CONTACT_KEYWORDS` (app.py:36). */
  const ContactKeywords: seq<string> := ["contact", "about", "get-in-touch", "reach-us", "support", "help"]

  /** The copy-quality heuristic sees at most this many characters of page text (app.py:131). */
  const CopySample := 2000

  /** Caps on the stored lists (app.py:143-145). */
  const MaxEmails := 5
  const MaxPhones := 5
  const MaxContactLinks := 3

  /**
    What the parser yields for one page: its visible text, the `href` of every
    anchor in document order, whether a `<form>` and a JSON-LD script exist, and
    how many buttons or anchors carry a cta/button/btn class.
   */
  datatype Page = Page(text: string, hrefs: seq<string>, hasForm: bool, hasSchema: bool, ctaCount: nat)

  /**
    The collaborators the analysis calls but the model does not interpret:
    `extract_emails`, `extract_phones` and `urljoin(base, href)`.
   */
  datatype Extractors = Extractors(
    emails: string -> seq<string>,
    phones: string -> seq<string>,
    resolve: (string, string) -> string)

  /** The analysis record of app.py:141-151, without its `url` key (the lead already holds the same URL). */
  datatype Analysis = Analysis(
    emails: seq<string>,
    phones: seq<string>,
    contactLinks: seq<string>,
    hasForm: bool,
    hasSchema: bool,
    hasCta: bool,
    copyQualityScore: nat,
    leadScore: nat)

  /** The record substituted for a page that could not be analysed (app.py:337-346). */
  const ZeroAnalysis := Analysis([], [], [], false, false, false, 0, 0)

  /**
    The lead score of app.py:134-139 and 150, accumulated and capped at 10 as
    the source does; it equals the plain weighted sum, so the cap never bites.
   */
  function LeadScore(hasEmails: bool, hasPhones: bool, hasContactLinks: bool, hasForm: bool, hasCta: bool): (r: nat)
    ensures r == WeightedSum(hasEmails, hasPhones, hasContactLinks, hasForm, hasCta)
    ensures r <= 10
  {
    var s1 := if hasEmails then 3 else 0;
    var s2 := if hasPhones then s1 + 3 else s1;
    var s3 := if hasContactLinks then s2 + 2 else s2;
    var s4 := if hasForm then s3 + 1 else s3;
    var s5 := if hasCta then s4 + 1 else s4;
    if s5 < 10 then s5 else 10
  }

  function Min(a: nat, b: nat): nat { if a < b then a else b }

  function Indicator(b: bool): nat { if b then 1 else 0 }

  /** The weighted sum the score is meant to compute, uncapped. */
  function WeightedSum(hasEmails: bool, hasPhones: bool, hasContactLinks: bool, hasForm: bool, hasCta: bool): nat
  {
    3 * Indicator(hasEmails) + 3 * Indicator(hasPhones) + 2 * Indicator(hasContactLinks)
    + Indicator(hasForm) + Indicator(hasCta)
  }

  /** The score lies in [0, 10]; it is 10 exactly when every signal is present and 0 exactly when none is. */
  lemma LeadScoreExtremes(e: bool, p: bool, c: bool, f: bool, a: bool)
    ensures 0 <= LeadScore(e, p, c, f, a) <= 10
    ensures LeadScore(e, p, c, f, a) == 10 <==> e && p && c && f && a
    ensures LeadScore(e, p, c, f, a) == 0 <==> !e && !p && !c && !f && !a
  {
  }

  /** Switching any one signal on never lowers the score. */
  lemma LeadScoreMonotone(e: bool, p: bool, c: bool, f: bool, a: bool)
    ensures LeadScore(e, p, c, f, a) <= LeadScore(true, p, c, f, a)
    ensures LeadScore(e, p, c, f, a) <= LeadScore(e, true, c, f, a)
    ensures LeadScore(e, p, c, f, a) <= LeadScore(e, p, true, f, a)
    ensures LeadScore(e, p, c, f, a) <= LeadScore(e, p, c, true, a)
    ensures LeadScore(e, p, c, f, a) <= LeadScore(e, p, c, f, true)
  {
  }

  /** The score a record's own lists and flags imply. */
  function StoredScore(a: Analysis): nat
  {
    LeadScore(|a.emails| > 0, |a.phones| > 0, |a.contactLinks| > 0, a.hasForm, a.hasCta)
  }

  /** A record whose `leadScore` agrees with its stored lists and flags. */
  predicate Consistent(a: Analysis)
  {
    a.leadScore == StoredScore(a)
  }

  /** The zero-valued record has empty lists, false flags and a score of 0, and is consistent. */
  lemma ZeroAnalysisIsZero()
    ensures ZeroAnalysis.emails == [] && ZeroAnalysis.phones == [] && ZeroAnalysis.contactLinks == []
    ensures !ZeroAnalysis.hasForm && !ZeroAnalysis.hasSchema && !ZeroAnalysis.hasCta
    ensures ZeroAnalysis.copyQualityScore == 0 && ZeroAnalysis.leadScore == 0
    ensures Consistent(ZeroAnalysis)
  {
  }

  /** An anchor is a contact link when its lower-cased href contains a contact keyword (app.py:115-116). */
  predicate IsContactHref(href: string)
  {
    ContainsAny(Lower(href), ContactKeywords)
  }

  /** The loop of app.py:114-118: resolve, in document order, every href that looks like a contact page. */
  function ContactLinks(base: string, hrefs: seq<string>, resolve: (string, string) -> string): (r: seq<string>)
    ensures |r| <= |hrefs|
    ensures |r| == |ContactHrefs(hrefs)|
  {
    if |hrefs| == 0 then []
    else
      var rest := ContactLinks(base, hrefs[1..], resolve);
      if IsContactHref(hrefs[0]) then [resolve(base, hrefs[0])] + rest else rest
  }

  /** The hrefs the contact loop keeps, in document order. */
  function ContactHrefs(hrefs: seq<string>): (r: seq<string>)
  {
    if |hrefs| == 0 then []
    else if IsContactHref(hrefs[0]) then [hrefs[0]] + ContactHrefs(hrefs[1..])
    else ContactHrefs(hrefs[1..])
  }

  /**
    The contact links are exactly the kept hrefs, resolved one by one; the kept
    hrefs form an in-order subsequence of the anchors, each one contains a contact
    keyword, and every anchor that contains one is kept.
   */
  lemma {:induction false} ContactLinksCharacterised(base: string, hrefs: seq<string>, resolve: (string, string) -> string)
    ensures |ContactLinks(base, hrefs, resolve)| == |ContactHrefs(hrefs)|
    ensures forall i :: 0 <= i < |ContactHrefs(hrefs)| ==>
      ContactLinks(base, hrefs, resolve)[i] == resolve(base, ContactHrefs(hrefs)[i])
    ensures forall i :: 0 <= i < |ContactHrefs(hrefs)| ==> IsContactHref(ContactHrefs(hrefs)[i])
    ensures IsSubsequence(ContactHrefs(hrefs), hrefs)
    ensures forall h :: h in hrefs && IsContactHref(h) ==> h in ContactHrefs(hrefs)
  {
    if |hrefs| > 0 {
      ContactLinksCharacterised(base, hrefs[1..], resolve);
      assert forall h :: h in hrefs ==> h == hrefs[0] || h in hrefs[1..];
      if IsContactHref(hrefs[0]) {
        assert ([hrefs[0]] + ContactHrefs(hrefs[1..]))[1..] == ContactHrefs(hrefs[1..]);
      }
    }
  }

  /** Reading one more anchor keeps it, once, exactly when it looks like a contact page; a repeated anchor is kept each time. */
  lemma {:induction false} ContactHrefsSnoc(hrefs: seq<string>, h: string)
    ensures ContactHrefs(hrefs + [h]) == ContactHrefs(hrefs) + (if IsContactHref(h) then [h] else [])
  {
    if |hrefs| == 0 {
      assert hrefs + [h] == [h];
    } else {
      assert (hrefs + [h])[1..] == hrefs[1..] + [h];
      ContactHrefsSnoc(hrefs[1..], h);
    }
  }

  /** Reading one more anchor appends its resolved link exactly when it looks like a contact page. */
  lemma {:induction false} ContactLinksSnoc(base: string, hrefs: seq<string>, h: string, resolve: (string, string) -> string)
    ensures ContactLinks(base, hrefs + [h], resolve)
      == ContactLinks(base, hrefs, resolve) + (if IsContactHref(h) then [resolve(base, h)] else [])
  {
    if |hrefs| == 0 {
      assert hrefs + [h] == [h];
    } else {
      assert (hrefs + [h])[1..] == hrefs[1..] + [h];
      ContactLinksSnoc(base, hrefs[1..], h, resolve);
    }
  }

  /** The record `analyze_landing_page` returns for a successfully fetched page (app.py:108-151). */
  function Analyze(url: string, page: Page, ex: Extractors): (r: Analysis)
    ensures |r.emails| <= MaxEmails && |r.phones| <= MaxPhones && |r.contactLinks| <= MaxContactLinks
    ensures IsPrefix(r.emails, ex.emails(page.text))
    ensures IsPrefix(r.phones, ex.phones(page.text))
    ensures IsPrefix(r.contactLinks, ContactLinks(url, page.hrefs, ex.resolve))
    ensures |r.emails| == Min(|ex.emails(page.text)|, MaxEmails)
    ensures |r.phones| == Min(|ex.phones(page.text)|, MaxPhones)
    ensures |r.contactLinks| == Min(|ContactHrefs(page.hrefs)|, MaxContactLinks)
    ensures forall i :: 0 <= i < |r.contactLinks| ==>
      r.contactLinks[i] == ex.resolve(url, ContactHrefs(page.hrefs)[i]) && IsContactHref(ContactHrefs(page.hrefs)[i])
    ensures r.hasForm == page.hasForm && r.hasSchema == page.hasSchema
    ensures r.hasCta <==> page.ctaCount > 0
    ensures r.copyQualityScore <= 10
    ensures |page.text| < CopyQuality.MinLength ==> r.copyQualityScore == 0
    ensures |page.text| >= CopyQuality.MinLength ==>
      r.copyQualityScore == 2 * CopyQuality.ChecksOf(Take(page.text, CopySample)).Passed()
    ensures |page.text| >= CopySample ==> !CopyQuality.ChecksOf(Take(page.text, CopySample)).lengthInRange
    ensures Consistent(r)
  {
    ContactLinksCharacterised(url, page.hrefs, ex.resolve);
    var emails := ex.emails(page.text);
    var phones := ex.phones(page.text);
    var contacts := ContactLinks(url, page.hrefs, ex.resolve);
    var hasCta := page.ctaCount > 0;
    var copyQuality := CopyQuality.CalculateCopyQuality(Take(page.text, CopySample));
    var score := LeadScore(|emails| > 0, |phones| > 0, |contacts| > 0, page.hasForm, hasCta);
    Analysis(
      Take(emails, MaxEmails),
      Take(phones, MaxPhones),
      Take(contacts, MaxContactLinks),
      page.hasForm,
      page.hasSchema,
      hasCta,
      copyQuality,
      score)
  }

  /**
    The schema flag and the copy-quality score do not feed the lead score: two
    pages with the same anchors, form and call-to-action facts, whose texts yield
    emails and phones equally, score the same.
   */
  lemma LeadScoreIgnoresSchemaAndCopy(url: string, p: Page, q: Page, ex: Extractors)
    requires p.hrefs == q.hrefs && p.hasForm == q.hasForm && (p.ctaCount > 0 <==> q.ctaCount > 0)
    requires |ex.emails(p.text)| > 0 <==> |ex.emails(q.text)| > 0
    requires |ex.phones(p.text)| > 0 <==> |ex.phones(q.text)| > 0
    ensures Analyze(url, p, ex).leadScore == Analyze(url, q, ex).leadScore
  {
  }

  /** A page with emails, phones and a form (and nothing else) scores 3 + 3 + 1. */
  lemma EmailPhoneFormScoresSeven(url: string, page: Page, ex: Extractors)
    requires |ex.emails(page.text)| > 0 && |ex.phones(page.text)| > 0 && page.hasForm
    requires ContactHrefs(page.hrefs) == [] && page.ctaCount == 0
    ensures Analyze(url, page, ex).leadScore == 7
  {
    ContactLinksCharacterised(url, page.hrefs, ex.resolve);
  }
}

=== FILE: pipeline.dfy ===
/**
  The merge, zero-fill and ranking steps of `scrape_all_platforms`
  (app.py:311-351). The three connectors run one after the other in their
  fixed order (the concurrent `asyncio.gather` returns its results in that
  order); the landing-page fetch is a parameter that yields `None` for a
  non-200 status or an exception.
 */
module Pipeline {
  import opened Text
  import opened Wrappers
  import Connector
  import LandingPage
  import Ranking

  /** A connector record updated with its analysis (app.py:333-346). */
  datatype Lead = Lead(candidate: Connector.Candidate, analysis: LandingPage.Analysis)

  /** The sort key of app.py:349. */
  function Score(l: Lead): int
  {
    l.analysis.leadScore
  }

  /** The rendered pages of the three connectors; `None` when a browser session failed. */
  datatype Pages = Pages(meta: Option<seq<string>>, reddit: Option<seq<string>>, linkedIn: Option<seq<string>>)

  /** One connector: a failed session yields no records, as its `except` clause does. */
  method ScrapeConnector(p: Connector.Platform, query: string, page: Option<seq<string>>, maxResults: int)
    returns (results: seq<Connector.Candidate>)
    ensures page.None? ==> results == []
    ensures page.Some? ==> results == Connector.Collected(p, query, page.value, maxResults)
  {
    results := [];
    if page.Some? {
      results := Connector.CollectLinks(p, query, page.value, maxResults);
    }
  }

  /** What one connector contributes, as a function. */
  function Output(p: Connector.Platform, query: string, page: Option<seq<string>>): seq<Connector.Candidate>
  {
    match page
    case None => []
    case Some(hrefs) => Connector.Collected(p, query, hrefs, Connector.DefaultMaxResults)
  }

  /** `all_leads.extend(...)` over the connector outputs in order (app.py:319-321). */
  function Concat(outputs: seq<seq<Connector.Candidate>>): (r: seq<Connector.Candidate>)
    ensures |r| == TotalLength(outputs)
  {
    if |outputs| == 0 then [] else outputs[0] + Concat(outputs[1..])
  }

  /** Total length of a list of lists. */
  function TotalLength(outputs: seq<seq<Connector.Candidate>>): nat
  {
    if |outputs| == 0 then 0 else |outputs[0]| + TotalLength(outputs[1..])
  }

  /** Merging keeps every record: nothing is deduplicated, so each URL occurs as often as in all outputs together. */
  lemma {:induction false} ConcatKeepsAll(outputs: seq<seq<Connector.Candidate>>)
    ensures |Concat(outputs)| == TotalLength(outputs)
    ensures multiset(Connector.Urls(Concat(outputs))) == UrlBag(outputs)
  {
    if |outputs| > 0 {
      ConcatKeepsAll(outputs[1..]);
      UrlsAppend(outputs[0], Concat(outputs[1..]));
    }
  }

  /** The bag of URLs of all outputs together. */
  ghost function UrlBag(outputs: seq<seq<Connector.Candidate>>): multiset<string>
  {
    if |outputs| == 0 then multiset{} else multiset(Connector.Urls(outputs[0])) + UrlBag(outputs[1..])
  }

  lemma UrlsAppend(a: seq<Connector.Candidate>, b: seq<Connector.Candidate>)
    ensures Connector.Urls(a + b) == Connector.Urls(a) + Connector.Urls(b)
  {
  }

  /**
    The outcome of the `n`-th page request, made for `url`: `None` for a non-200
    status or an error, the parsed page otherwise. Every record issues its own
    request, so two records with the same URL may see different outcomes.
   */
  type Fetch = (nat, string) -> Option<LandingPage.Page>

  /** `analyze_landing_page` as the `n`-th request: `None` when the fetch fails, the record otherwise. */
  function AnalyzeUrl(n: nat, url: string, fetch: Fetch, ex: LandingPage.Extractors): Option<LandingPage.Analysis>
  {
    match fetch(n, url)
    case None => None
    case Some(page) => Some(LandingPage.Analyze(url, page, ex))
  }

  /** `asyncio.gather` over the analyses (app.py:327-331): one request per record, results in record order. */
  function Gather(cands: seq<Connector.Candidate>, fetch: Fetch, ex: LandingPage.Extractors)
    : (r: seq<Option<LandingPage.Analysis>>)
    ensures |r| == |cands|
    ensures forall i :: 0 <= i < |r| ==> r[i] == AnalyzeUrl(i, cands[i].url, fetch, ex)
  {
    if |cands| == 0 then []
    else
      var last := |cands| - 1;
      Gather(cands[..last], fetch, ex) + [AnalyzeUrl(last, cands[last].url, fetch, ex)]
  }

  /** The `zip` of app.py:333-346: a missing analysis becomes the zero-valued record. */
  function Attach(cands: seq<Connector.Candidate>, analyses: seq<Option<LandingPage.Analysis>>): (r: seq<Lead>)
    ensures |r| == if |cands| < |analyses| then |cands| else |analyses|
    ensures forall i :: 0 <= i < |r| ==> r[i].candidate == cands[i]
    ensures forall i :: 0 <= i < |r| ==>
      r[i].analysis == (if analyses[i].Some? then analyses[i].value else LandingPage.ZeroAnalysis)
  {
    if |cands| == 0 || |analyses| == 0 then []
    else
      var a := match analyses[0] case Some(x) => x case None => LandingPage.ZeroAnalysis;
      [Lead(cands[0], a)] + Attach(cands[1..], analyses[1..])
  }

  /** Every record keeps its place and gets its own page's analysis, or the zero record when the fetch failed. */
  function Enrich(cands: seq<Connector.Candidate>, fetch: Fetch, ex: LandingPage.Extractors)
    : (r: seq<Lead>)
    ensures |r| == |cands|
    ensures forall i :: 0 <= i < |r| ==> r[i].candidate == cands[i]
    ensures forall i :: 0 <= i < |r| && fetch(i, cands[i].url).None? ==> r[i].analysis == LandingPage.ZeroAnalysis
    ensures forall i :: 0 <= i < |r| && fetch(i, cands[i].url).Some? ==>
      r[i].analysis == LandingPage.Analyze(cands[i].url, fetch(i, cands[i].url).value, ex)
    ensures forall i :: 0 <= i < |r| ==> LandingPage.Consistent(r[i].analysis) && 0 <= Score(r[i]) <= 10
  {
    var r := Attach(cands, Gather(cands, fetch, ex));
    forall i | 0 <= i < |r|
      ensures 0 <= Score(r[i]) <= 10
    {
      var a := r[i].analysis;
      LandingPage.LeadScoreExtremes(|a.emails| > 0, |a.phones| > 0, |a.contactLinks| > 0, a.hasForm, a.hasCta);
    }
    r
  }

  /** The sort of app.py:349. */
  function Rank(leads: seq<Lead>): (r: seq<Lead>)
    ensures |r| == |leads|
    ensures multiset(r) == multiset(leads)
    ensures forall i :: 0 <= i < |r| ==> r[i] in leads
    ensures Ranking.SortedDesc(r, Score)
    ensures forall k :: Ranking.WithKey(r, Score, k) == Ranking.WithKey(leads, Score, k)
  {
    var r := Ranking.SortByKey(leads, Score);
    assert forall i :: 0 <= i < |r| ==> r[i] in multiset(leads);
    forall k
      ensures Ranking.WithKey(r, Score, k) == Ranking.WithKey(leads, Score, k)
    {
      Ranking.SortStable(leads, Score, k);
    }
    r
  }

  /** The merged, enriched records before sorting. */
  function Merged(query: string, pages: Pages, fetch: Fetch, ex: LandingPage.Extractors): seq<Lead>
  {
    Enrich(Concat([
      Output(Connector.MetaAds, query, pages.meta),
      Output(Connector.Reddit, query, pages.reddit),
      Output(Connector.LinkedIn, query, pages.linkedIn)]), fetch, ex)
  }

  /**
    `scrape_all_platforms` (app.py:311-351): every connector record appears once
    in the output with its own analysis (or the zero record), nothing is
    deduplicated, the list is ordered by non-increasing lead score, and leads
    with equal scores keep the Meta, Reddit, LinkedIn merge order.
   */
  method ScrapeAllPlatforms(query: string, pages: Pages, fetch: Fetch, ex: LandingPage.Extractors)
    returns (leads: seq<Lead>)
    ensures |leads| == |Output(Connector.MetaAds, query, pages.meta)|
      + |Output(Connector.Reddit, query, pages.reddit)| + |Output(Connector.LinkedIn, query, pages.linkedIn)|
    ensures multiset(leads) == multiset(Merged(query, pages, fetch, ex))
    ensures Ranking.SortedDesc(leads, Score)
    ensures forall k :: Ranking.WithKey(leads, Score, k) == Ranking.WithKey(Merged(query, pages, fetch, ex), Score, k)
    ensures forall i :: 0 <= i < |leads| ==> LandingPage.Consistent(leads[i].analysis) && 0 <= Score(leads[i]) <= 10
  {
    var all := ScrapeConnectors(query, pages);
    var enriched := Enrich(all, fetch, ex);
    assert enriched == Merged(query, pages, fetch, ex);
    MergedLength(query, pages, fetch, ex);
    leads := Rank(enriched);
  }

  /** The three connectors in their fixed order, their records concatenated (app.py:312-321). */
  method ScrapeConnectors(query: string, pages: Pages) returns (all: seq<Connector.Candidate>)
    ensures all == Concat([
      Output(Connector.MetaAds, query, pages.meta),
      Output(Connector.Reddit, query, pages.reddit),
      Output(Connector.LinkedIn, query, pages.linkedIn)])
  {
    var meta := ScrapeConnector(Connector.MetaAds, query, pages.meta, Connector.DefaultMaxResults);
    var reddit := ScrapeConnector(Connector.Reddit, query, pages.reddit, Connector.DefaultMaxResults);
    var linkedIn := ScrapeConnector(Connector.LinkedIn, query, pages.linkedIn, Connector.DefaultMaxResults);
    all := Concat([meta, reddit, linkedIn]);
  }

  /** The merged list holds exactly as many leads as the three connectors returned records. */
  lemma MergedLength(query: string, pages: Pages, fetch: Fetch, ex: LandingPage.Extractors)
    ensures |Merged(query, pages, fetch, ex)| == |Output(Connector.MetaAds, query, pages.meta)|
      + |Output(Connector.Reddit, query, pages.reddit)| + |Output(Connector.LinkedIn, query, pages.linkedIn)|
  {
    var outputs := [
      Output(Connector.MetaAds, query, pages.meta),
      Output(Connector.Reddit, query, pages.reddit),
      Output(Connector.LinkedIn, query, pages.linkedIn)];
    ConcatKeepsAll(outputs);
    assert outputs[1..][1..][1..] == [];
    assert TotalLength(outputs[1..][1..]) == |outputs[2]|;
    assert TotalLength(outputs[1..]) == |outputs[1]| + |outputs[2]|;
  }

  /**
    No URL deduplication: when two connectors return the same URL, the merged
    list carries it once per connector record.
   */
  lemma DuplicatesSurviveMerge(a: seq<Connector.Candidate>, b: seq<Connector.Candidate>, url: string)
    requires url in Connector.Urls(a) && url in Connector.Urls(b)
    ensures multiset(Connector.Urls(Concat([a, b])))[url] >= 2
  {
    assert [a, b][1..] == [b] && [b][1..] == [];
    assert Concat([b]) == b;
    assert Concat([a, b]) == a + b;
    UrlsAppend(a, b);
    var ua, ub := Connector.Urls(a), Connector.Urls(b);
    assert multiset(ua + ub) == multiset(ua) + multiset(ub);
  }

  /** A lead whose page could not be fetched stays in the ranked output, with the zero record and score 0. */
  lemma FailedPageKeptAtZero(leads: seq<Lead>, i: nat)
    requires i < |leads| && leads[i].analysis == LandingPage.ZeroAnalysis
    ensures leads[i] in Rank(leads) && Score(leads[i]) == 0
  {
    assert leads[i] in multiset(leads);
    assert leads[i] in multiset(Rank(leads));
  }
}

=== FILE: ranking.dfy ===
/**
  The final ranking of app.py:349, `list.sort(key=..., reverse=True)`: a stable
  sort by a key, largest key first. Python keeps equal-key elements in their
  original order even with `reverse=True`; the insertion sort below does the
  same, and `SortedStableUnique` shows that these two requirements leave only
  one possible output.
 */
module Ranking {

  /** Keys never increase from left to right. */
  ghost predicate SortedDesc<T>(s: seq<T>, key: T -> int)
  {
    forall i, j :: 0 <= i < j < |s| ==> key(s[i]) >= key(s[j])
  }

  /** The elements of `s` whose key is `k`, in their order in `s`. */
  function WithKey<T>(s: seq<T>, key: T -> int, k: int): (r: seq<T>)
    ensures |r| <= |s|
  {
    if |s| == 0 then []
    else if key(s[0]) == k then [s[0]] + WithKey(s[1..], key, k)
    else WithKey(s[1..], key, k)
  }

  /** Insert `x` before the first element whose key is not larger than its own. */
  function Insert<T>(x: T, s: seq<T>, key: T -> int): (r: seq<T>)
    ensures |r| == |s| + 1
    ensures multiset(r) == multiset(s) + multiset{x}
    ensures forall j :: 0 <= j < |r| ==> r[j] == x || r[j] in s
  {
    if |s| == 0 || key(x) >= key(s[0]) then [x] + s
    else
      assert s == [s[0]] + s[1..];
      [s[0]] + Insert(x, s[1..], key)
  }

  /** Inserting into a sorted sequence keeps it sorted. */
  lemma {:induction false} InsertSorted<T>(x: T, s: seq<T>, key: T -> int)
    requires SortedDesc(s, key)
    ensures SortedDesc(Insert(x, s, key), key)
  {
    if |s| > 0 && key(x) < key(s[0]) {
      var rest := Insert(x, s[1..], key);
      InsertSorted(x, s[1..], key);
      assert forall j :: 0 <= j < |rest| ==> key(rest[j]) <= key(s[0]);
      assert Insert(x, s, key) == [s[0]] + rest;
    }
  }

  /** Insertion sort, largest key first. */
  function SortByKey<T>(s: seq<T>, key: T -> int): (r: seq<T>)
    ensures |r| == |s|
    ensures multiset(r) == multiset(s)
    ensures SortedDesc(r, key)
  {
    if |s| == 0 then []
    else
      assert s == [s[0]] + s[1..];
      var sorted := SortByKey(s[1..], key);
      InsertSorted(s[0], sorted, key);
      Insert(s[0], sorted, key)
  }

  /** Inserting `x` keeps, for every key, the relative order of `[x] + s`. */
  lemma {:induction false} InsertStable<T>(x: T, s: seq<T>, key: T -> int, k: int)
    ensures WithKey(Insert(x, s, key), key, k) == WithKey([x] + s, key, k)
  {
    if |s| == 0 || key(x) >= key(s[0]) {
    } else {
      var rest := Insert(x, s[1..], key);
      InsertStable(x, s[1..], key, k);
      assert ([s[0]] + rest)[1..] == rest;
      assert ([x] + s)[1..] == s;
      assert ([x] + s[1..])[1..] == s[1..];
    }
  }

  /** Equal keys keep their original order: the sort is stable. */
  lemma {:induction false} SortStable<T>(s: seq<T>, key: T -> int, k: int)
    ensures WithKey(SortByKey(s, key), key, k) == WithKey(s, key, k)
  {
    if |s| > 0 {
      var sorted := SortByKey(s[1..], key);
      InsertStable(s[0], sorted, key, k);
      SortStable(s[1..], key, k);
      assert ([s[0]] + sorted)[1..] == sorted;
    }
  }

  /** The first element of `s` with key `k`, if `s` starts with one. */
  lemma WithKeyHead<T>(s: seq<T>, key: T -> int)
    requires |s| > 0
    ensures WithKey(s, key, key(s[0])) == [s[0]] + WithKey(s[1..], key, key(s[0]))
  {
  }

  /** Some element has key `k` exactly when filtering by `k` is non-empty. */
  lemma {:induction false} WithKeyNonEmpty<T>(s: seq<T>, key: T -> int, i: nat)
    requires i < |s|
    ensures |WithKey(s, key, key(s[i]))| > 0
  {
    if i > 0 && key(s[0]) != key(s[i]) {
      WithKeyNonEmpty(s[1..], key, i - 1);
    }
  }

  /** A sequence whose every key filter is empty is empty. */
  lemma EmptyWhenNoKey<T>(s: seq<T>, key: T -> int)
    ensures (forall k :: |WithKey(s, key, k)| == 0) ==> |s| == 0
  {
    if |s| > 0 {
      WithKeyNonEmpty(s, key, 0);
    }
  }

  /** Every element the filter keeps comes from `s`. */
  lemma {:induction false} WithKeyFrom<T>(s: seq<T>, key: T -> int, k: int, j: nat)
    requires j < |WithKey(s, key, k)|
    ensures exists i :: 0 <= i < |s| && WithKey(s, key, k)[j] == s[i] && key(s[i]) == k
  {
    if key(s[0]) == k {
      if j > 0 {
        WithKeyFrom(s[1..], key, k, j - 1);
        var i :| 0 <= i < |s[1..]| && WithKey(s[1..], key, k)[j - 1] == s[1..][i] && key(s[1..][i]) == k;
        assert s[i + 1] == s[1..][i];
      }
    } else {
      WithKeyFrom(s[1..], key, k, j);
      var i :| 0 <= i < |s[1..]| && WithKey(s[1..], key, k)[j] == s[1..][i] && key(s[1..][i]) == k;
      assert s[i + 1] == s[1..][i];
    }
  }

  /** Filtering the tail of `s` by a key other than that of its head equals filtering `s`. */
  lemma WithKeyOtherHead<T>(s: seq<T>, key: T -> int, k: int)
    requires |s| > 0 && key(s[0]) != k
    ensures WithKey(s[1..], key, k) == WithKey(s, key, k)
  {
  }

  /**
    Sorted order plus stability pin the output down: two sequences that are
    both sorted largest-key-first and agree, key by key, on the order of their
    elements are equal. So any stable descending sort, Python's included,
    returns exactly `SortByKey`.
   */
  lemma {:induction false} SortedStableUnique<T>(a: seq<T>, b: seq<T>, key: T -> int)
    requires SortedDesc(a, key) && SortedDesc(b, key)
    requires forall k :: WithKey(a, key, k) == WithKey(b, key, k)
    ensures a == b
    decreases |a|
  {
    EmptyWhenNoKey(a, key);
    EmptyWhenNoKey(b, key);
    if |a| == 0 || |b| == 0 {
      assert forall k :: |WithKey(a, key, k)| == |WithKey(b, key, k)|;
    } else {
      var ka, kb := key(a[0]), key(b[0]);
      // The largest key of `a` occurs in `b`, so it is at most `b`'s largest, and conversely.
      WithKeyNonEmpty(a, key, 0);
      WithKeyFrom(b, key, ka, 0);
      WithKeyNonEmpty(b, key, 0);
      WithKeyFrom(a, key, kb, 0);
      assert ka == kb;
      WithKeyHead(a, key);
      WithKeyHead(b, key);
      assert a[0] == WithKey(a, key, ka)[0] == WithKey(b, key, ka)[0] == b[0];
      forall k
        ensures WithKey(a[1..], key, k) == WithKey(b[1..], key, k)
      {
        if k == ka {
          assert WithKey(a, key, k)[1..] == WithKey(a[1..], key, k);
          assert WithKey(b, key, k)[1..] == WithKey(b[1..], key, k);
        } else {
          WithKeyOtherHead(a, key, k);
          WithKeyOtherHead(b, key, k);
        }
      }
      SortedStableUnique(a[1..], b[1..], key);
      assert a == [a[0]] + a[1..] && b == [b[0]] + b[1..];
    }
  }
}

=== FILE: text.dfy ===
/**
  The string operations the scraper relies on: lower-casing, prefix tests and
  Python's substring operator `w in s`.
 */
module Text {

  /** ASCII lower-casing of one character. */
  function LowerChar(c: char): char
  {
    if 'A' <= c <= 'Z' then (c as int + 32) as char else c
  }

  /**
    Python's `s.lower()`, restricted to the ASCII letters: the result has no
    upper-case letter left, and every other character is kept in place.
   */
  function Lower(s: string): (r: string)
    ensures |r| == |s|
    ensures forall i :: 0 <= i < |s| ==> r[i] == LowerChar(s[i])
    ensures forall i :: 0 <= i < |r| ==> !('A' <= r[i] <= 'Z')
    ensures forall i :: 0 <= i < |s| && !('A' <= s[i] <= 'Z') ==> r[i] == s[i]
  {
    seq(|s|, i requires 0 <= i < |s| => LowerChar(s[i]))
  }

  /** Lower-casing commutes with concatenation. */
  lemma LowerAppend(s: string, t: string)
    ensures Lower(s + t) == Lower(s) + Lower(t)
  {
    assert forall i :: 0 <= i < |s + t| ==> Lower(s + t)[i] == (Lower(s) + Lower(t))[i];
  }

  /** `a` is a prefix of `b`. */
  predicate IsPrefix<T(==)>(a: seq<T>, b: seq<T>)
  {
    |a| <= |b| && b[..|a|] == a
  }

  /** Python's `s.startswith(p)`. */
  predicate StartsWith(s: string, p: string)
  {
    IsPrefix(p, s)
  }

  /** Python's `w in s`: `w` occurs somewhere in `s`, scanning left to right. */
  predicate Contains(s: string, w: string)
    ensures Contains(s, w) ==> |w| <= |s|
    decreases |s|
  {
    StartsWith(s, w) || (|s| > 0 && Contains(s[1..], w))
  }

  /** `w` occurs in `s` starting at position `i`. */
  ghost predicate OccursAt(s: string, w: string, i: int)
  {
    0 <= i && i + |w| <= |s| && s[i..i + |w|] == w
  }

  /** Every occurrence found by scanning sits at some position. */
  lemma {:induction false} ContainsHasOccurrence(s: string, w: string) returns (i: nat)
    requires Contains(s, w)
    ensures OccursAt(s, w, i)
    decreases |s|
  {
    if StartsWith(s, w) {
      i := 0;
    } else {
      var j := ContainsHasOccurrence(s[1..], w);
      assert s[j + 1..j + 1 + |w|] == s[1..][j..j + |w|];
      i := j + 1;
    }
  }

  /** Scanning finds every occurrence. */
  lemma {:induction false} OccurrenceContained(s: string, w: string, i: int)
    requires OccursAt(s, w, i)
    ensures Contains(s, w)
    decreases i
  {
    if i > 0 {
      assert s[1..][i - 1..i - 1 + |w|] == s[i..i + |w|];
      OccurrenceContained(s[1..], w, i - 1);
    }
  }

  /** The scanning definition of `Contains` agrees with the positional one, in both directions. */
  lemma ContainsIffOccurs(s: string, w: string)
    ensures Contains(s, w) <==> exists i :: OccursAt(s, w, i)
  {
    if Contains(s, w) {
      var i := ContainsHasOccurrence(s, w);
    }
    forall i | OccursAt(s, w, i)
      ensures Contains(s, w)
    {
      OccurrenceContained(s, w, i);
    }
  }

  /** Every character of a contained word occurs in the text. */
  lemma ContainedCharsOccur(s: string, w: string)
    ensures Contains(s, w) ==> forall k :: 0 <= k < |w| ==> w[k] in s
  {
    if Contains(s, w) {
      var i := ContainsHasOccurrence(s, w);
      assert forall k :: 0 <= k < |w| ==> w[k] == s[i + k];
    }
  }

  /** A word with a character the text lacks does not occur in it. */
  lemma AbsentCharNotContained(s: string, w: string, k: nat, c: char)
    requires k < |w| && w[k] == c && forall i :: 0 <= i < |s| ==> s[i] != c
    ensures !Contains(s, w)
  {
    ContainedCharsOccur(s, w);
  }

  /** An occurrence inside `s` is still an occurrence once text is appended to `s`. */
  lemma ContainsAppend(s: string, t: string, w: string)
    requires Contains(s, w)
    ensures Contains(s + t, w)
  {
    ContainsIffOccurs(s, w);
    var i :| OccursAt(s, w, i);
    assert (s + t)[i..i + |w|] == s[i..i + |w|];
    assert OccursAt(s + t, w, i);
    ContainsIffOccurs(s + t, w);
  }

  /** Python's `any(w in s for w in words)`. */
  predicate ContainsAny(s: string, words: seq<string>)
  {
    exists j :: 0 <= j < |words| && Contains(s, words[j])
  }

  /** `ContainsAny` survives appending text. */
  lemma ContainsAnyAppend(s: string, t: string, words: seq<string>)
    requires ContainsAny(s, words)
    ensures ContainsAny(s + t, words)
  {
    var j :| 0 <= j < |words| && Contains(s, words[j]);
    ContainsAppend(s, t, words[j]);
  }

  /** The first `n` elements of `s`, or all of them when `s` is shorter: Python's `s[:n]` for `n >= 0`. */
  function Take<T>(s: seq<T>, n: nat): (r: seq<T>)
    ensures |r| == if |s| < n then |s| else n
    ensures r == s[..|r|]
    ensures n >= |s| ==> r == s
  {
    if n < |s| then s[..n] else s
  }

  /** `a` can be obtained from `b` by deleting elements: `a` keeps the order of `b`. */
  predicate IsSubsequence<T(==)>(a: seq<T>, b: seq<T>)
    decreases |b|
  {
    if |a| == 0 then true
    else if |b| == 0 then false
    else if a[0] == b[0] then IsSubsequence(a[1..], b[1..])
    else IsSubsequence(a, b[1..])
  }

  /** A prefix of a subsequence is a subsequence. */
  lemma {:induction false} SubsequencePrefix<T>(a: seq<T>, b: seq<T>, n: nat)
    requires IsSubsequence(a, b)
    requires n <= |a|
    ensures IsSubsequence(a[..n], b)
    decreases |b|
  {
    if n == 0 || |a| == 0 {
    } else if a[0] == b[0] {
      SubsequencePrefix(a[1..], b[1..], n - 1);
      assert a[..n][1..] == a[1..][..n - 1];
    } else {
      SubsequencePrefix(a, b[1..], n);
    }
  }
}

=== FILE: url_policy.dfy ===
/**
  URL validation (`is_valid_url`, app.py:41-45): a candidate URL is kept when it
  starts with "http" and its lower-cased host contains none of the blocked
  domain strings. The match is a substring test, so a host such as `box.com`
  is rejected because it contains `x.com`.
 */
module UrlPolicy {
  import opened Text
  import opened Wrappers

  /** `BLOCKED_DOMAINS` (app.py:30-34): social networks and URL shorteners. */
  const BlockedDomains: seq<string> := [
    "facebook.com", "fb.com", "instagram.com", "twitter.com", "x.com",
    "linkedin.com", "reddit.com", "youtube.com", "youtu.be", "tiktok.com",
    "bit.ly", "t.co", "goo.gl", "ow.ly", "short.link", "tinyurl.com"
  ]

  /** Characters `urlsplit` accepts in a scheme name. */
  predicate IsSchemeChar(c: char)
  {
    ('a' <= c <= 'z') || ('A' <= c <= 'Z') || ('0' <= c <= '9') || c == '+' || c == '-' || c == '.'
  }

  /** A scheme name `urlsplit` recognises: non-empty, starting with an ASCII letter, scheme characters only. */
  predicate IsSchemeName(s: string)
  {
    |s| > 0 && (('a' <= s[0] <= 'z') || ('A' <= s[0] <= 'Z')) && forall k :: 0 <= k < |s| ==> IsSchemeChar(s[k])
  }

  /** Index of the first ':' in `s`, if any. */
  function ColonIndex(s: string): (r: Option<nat>)
    ensures r.Some? ==> r.value < |s| && s[r.value] == ':'
    ensures r.Some? ==> forall k :: 0 <= k < r.value ==> s[k] != ':'
    ensures r.None? ==> forall k :: 0 <= k < |s| ==> s[k] != ':'
  {
    if |s| == 0 then None
    else if s[0] == ':' then Some(0)
    else match ColonIndex(s[1..])
      case None => None
      case Some(i) => Some(i + 1)
  }

  /**
    What follows the scheme: `urlsplit` strips `scheme:` when the text before
    the first ':' is a scheme name, and leaves the URL whole otherwise.
   */
  function AfterScheme(url: string): (r: string)
    ensures |r| <= |url| && r == url[|url| - |r|..]
  {
    match ColonIndex(url)
    case None => url
    case Some(i) => if IsSchemeName(url[..i]) then url[i + 1..] else url
  }

  /** The first ':' of `s + ":" + rest` is the one after `s` when `s` holds none. */
  lemma ColonAfter(s: string, rest: string)
    requires forall k :: 0 <= k < |s| ==> s[k] != ':'
    ensures ColonIndex(s + ":" + rest) == Some(|s|)
  {
    assert (s + ":" + rest)[|s|] == ':';
  }

  /** A scheme name and its ':' are stripped, whatever follows. */
  lemma AfterSchemeName(scheme: string, rest: string)
    requires IsSchemeName(scheme)
    ensures AfterScheme(scheme + ":" + rest) == rest
  {
    var url := scheme + ":" + rest;
    ColonAfter(scheme, rest);
    assert url[..|scheme|] == scheme;
    assert url[|scheme| + 1..] == rest;
  }

  /** Text before the first ':' that is not a scheme name is not stripped. */
  lemma AfterNonSchemeName(prefix: string, rest: string)
    requires forall k :: 0 <= k < |prefix| ==> prefix[k] != ':'
    requires !IsSchemeName(prefix)
    ensures AfterScheme(prefix + ":" + rest) == prefix + ":" + rest
  {
    var url := prefix + ":" + rest;
    ColonAfter(prefix, rest);
    assert url[..|prefix|] == prefix;
  }

  /** A URL without ':' has no scheme to strip. */
  lemma AfterNoColon(url: string)
    requires forall k :: 0 <= k < |url| ==> url[k] != ':'
    ensures AfterScheme(url) == url
  {
  }

  /** The characters that end a network location. */
  predicate IsNetlocDelimiter(c: char)
  {
    c == '/' || c == '?' || c == '#'
  }

  /** The longest prefix of `s` free of '/', '?' and '#'. */
  function UntilDelimiter(s: string): (r: string)
    ensures StartsWith(s, r)
    ensures forall k :: 0 <= k < |r| ==> !IsNetlocDelimiter(r[k])
    ensures |r| < |s| ==> IsNetlocDelimiter(s[|r|])
  {
    if |s| == 0 || IsNetlocDelimiter(s[0]) then []
    else [s[0]] + UntilDelimiter(s[1..])
  }

  /**
    `urlparse(url).netloc`: the text between "//" and the next '/', '?' or '#';
    empty without "//". A non-empty netloc appears in the URL right after "//".
   */
  function Netloc(url: string): (r: string)
    ensures forall k :: 0 <= k < |r| ==> !IsNetlocDelimiter(r[k])
    ensures |r| > 0 ==> Contains(url, "//" + r)
  {
    var rest := AfterScheme(url);
    if StartsWith(rest, "//") then
      var r := UntilDelimiter(rest[2..]);
      NetlocOccurs(url, rest, r);
      r
    else []
  }

  /** Text that starts a suffix of `url` right after "//" occurs in `url` after "//". */
  lemma NetlocOccurs(url: string, rest: string, r: string)
    requires |rest| <= |url| && rest == url[|url| - |rest|..]
    requires StartsWith(rest, "//") && StartsWith(rest[2..], r)
    ensures Contains(url, "//" + r)
  {
    var j := |url| - |rest|;
    var w := "//" + r;
    forall k | 0 <= k < |w|
      ensures url[j + k] == w[k]
    {
      assert url[j + k] == rest[k];
      if k >= 2 {
        assert rest[k] == rest[2..][k - 2];
      }
    }
    assert url[j..j + |w|] == w;
    OccurrenceContained(url, w, j);
  }

  /** `is_valid_url` (app.py:41-45): an accepted URL is non-empty and starts with "http". */
  predicate IsValidUrl(url: string)
    ensures IsValidUrl(url) ==> |url| >= 4 && url[..4] == "http"
  {
    if |url| == 0 || !StartsWith(url, "http") then false
    else !ContainsAny(Lower(Netloc(url)), BlockedDomains)
  }

  /**
    `urlsplit` raises `ValueError("Invalid IPv6 URL")` when the netloc holds
    '[' without ']' or ']' without '['.
   */
  predicate BracketsUnbalanced(netloc: string)
  {
    ('[' in netloc) != (']' in netloc)
  }

  /**
    `is_valid_url` raises instead of answering: the URL gets past the "http"
    test of app.py:42-43, and `urlparse` on app.py:44 then rejects its netloc.
   */
  predicate ValidityRaises(url: string)
  {
    StartsWith(url, "http") && BracketsUnbalanced(Netloc(url))
  }

  /** The empty string and every string not starting with "http" are rejected. */
  lemma RejectsWithoutHttpPrefix(url: string)
    requires !StartsWith(url, "http")
    ensures !IsValidUrl(url)
  {
  }

  /**
    For an http-prefixed URL on which `urlparse` does not raise, validity fails
    exactly when some blocked domain occurs at some position of the lower-cased host.
   */
  lemma ValidIffNoBlockedOccurrence(url: string)
    requires StartsWith(url, "http") && !ValidityRaises(url)
    ensures IsValidUrl(url) <==>
      forall b, i :: b in BlockedDomains ==> !OccursAt(Lower(Netloc(url)), b, i)
  {
    var host := Lower(Netloc(url));
    forall j | 0 <= j < |BlockedDomains|
      ensures Contains(host, BlockedDomains[j]) <==> exists i :: OccursAt(host, BlockedDomains[j], i)
    {
      ContainsIffOccurs(host, BlockedDomains[j]);
    }
  }

  /** A host that embeds a blocked domain anywhere is rejected, whatever the path, unless `urlparse` raises first. */
  lemma RejectsBlockedSubstring(url: string, b: string)
    requires !ValidityRaises(url)
    requires b in BlockedDomains
    requires Contains(Lower(Netloc(url)), b)
    ensures !IsValidUrl(url)
  {
  }

  /** The URL `scheme://host` followed by `tail` (a path, query or fragment, or nothing). */
  function SchemeUrl(scheme: string, host: string, tail: string): string
  {
    scheme + ":" + "//" + host + tail
  }

  /** The URL `https://host/path`. */
  function HttpsUrl(host: string, path: string): string
  {
    SchemeUrl("https", host, "/" + path)
  }

  /**
    The netloc of `scheme://host...` is `host` when the scheme is a scheme name,
    the host holds no delimiter and a delimiter or the end of the URL follows it.
   */
  lemma NetlocOfSchemeUrl(scheme: string, host: string, tail: string)
    requires IsSchemeName(scheme)
    requires forall k :: 0 <= k < |host| ==> !IsNetlocDelimiter(host[k])
    requires |tail| == 0 || IsNetlocDelimiter(tail[0])
    ensures Netloc(SchemeUrl(scheme, host, tail)) == host
  {
    var rest := "//" + (host + tail);
    assert SchemeUrl(scheme, host, tail) == scheme + ":" + rest;
    AfterSchemeName(scheme, rest);
    assert rest[..2] == "//" && rest[2..] == host + tail;
    UntilDelimiterStops(host, tail);
  }

  /** Without "//" right after the scheme there is no netloc. */
  lemma NetlocNeedsSlashes(url: string)
    requires !StartsWith(AfterScheme(url), "//")
    ensures Netloc(url) == []
  {
  }

  /** The empty netloc contains no blocked domain: none of them is empty. */
  lemma EmptyHostClean()
    ensures !ContainsAny([], BlockedDomains)
  {
    forall j | 0 <= j < |BlockedDomains|
      ensures !Contains([], BlockedDomains[j])
    {
      assert |BlockedDomains[j]| > 0;
    }
  }

  /** An http-prefixed URL with an empty netloc is accepted. */
  lemma EmptyNetlocAccepted(url: string)
    requires StartsWith(url, "http") && Netloc(url) == []
    ensures IsValidUrl(url)
  {
    EmptyHostClean();
    assert Lower(Netloc(url)) == [];
  }

  /**
    `http:/` followed by anything but another '/' is accepted, `http:/facebook.com`
    included: with a single '/' after the scheme the netloc is empty, so the
    blocked-domain test has nothing to match.
   */
  lemma SingleSlashAccepted(path: string)
    requires |path| == 0 || path[0] != '/'
    ensures IsValidUrl("http:/" + path)
  {
    var url := "http:/" + path;
    var rest := "/" + path;
    assert IsSchemeName("http");
    assert url == "http" + ":" + rest;
    AfterSchemeName("http", rest);
    if |path| > 0 {
      assert rest[1] == path[0];
    }
    assert !StartsWith(rest, "//");
    assert url[..4] == "http";
    EmptyNetlocAccepted(url);
  }

  /** `UntilDelimiter` stops at the first delimiter after a delimiter-free prefix, or at the end. */
  lemma {:induction false} UntilDelimiterStops(h: string, tail: string)
    requires forall k :: 0 <= k < |h| ==> !IsNetlocDelimiter(h[k])
    requires |tail| == 0 || IsNetlocDelimiter(tail[0])
    ensures UntilDelimiter(h + tail) == h
    decreases |h|
  {
    if |h| == 0 {
      assert h + tail == tail;
    } else {
      assert (h + tail)[1..] == h[1..] + tail;
      UntilDelimiterStops(h[1..], tail);
    }
  }

  /** Lower-casing leaves a string without upper-case ASCII letters unchanged. */
  lemma LowerOfLowercase(s: string)
    requires forall k :: 0 <= k < |s| ==> !('A' <= s[k] <= 'Z')
    ensures Lower(s) == s
  {
  }

  /**
    An `http://` or `https://` URL whose lower-cased host embeds blocked domain
    `b`, and holds no unmatched bracket, is rejected whatever follows the host.
   */
  lemma BlockedHostRejected(scheme: string, host: string, tail: string, b: string)
    requires scheme == "http" || scheme == "https"
    requires forall k :: 0 <= k < |host| ==> !IsNetlocDelimiter(host[k])
    requires |tail| == 0 || IsNetlocDelimiter(tail[0])
    requires !BracketsUnbalanced(host)
    requires b in BlockedDomains
    requires Contains(Lower(host), b)
    ensures !IsValidUrl(SchemeUrl(scheme, host, tail))
  {
    assert IsSchemeName(scheme);
    NetlocOfSchemeUrl(scheme, host, tail);
  }

  /** `https://box.com/...` is rejected: its host contains `x.com`. */
  lemma BoxComRejected(path: string)
    ensures !IsValidUrl(HttpsUrl("box.com", path))
  {
    var host := "box.com";
    assert host[2..7] == "x.com";
    OccurrenceContained(host, "x.com", 2);
    LowerOfLowercase(host);
    BlockedHostRejected("https", host, "/" + path, "x.com");
  }

  /** `https://smart.com/...` is rejected: its host contains `t.co`. */
  lemma SmartComRejected(path: string)
    ensures !IsValidUrl(HttpsUrl("smart.com", path))
  {
    var host := "smart.com";
    assert host[4..8] == "t.co";
    OccurrenceContained(host, "t.co", 4);
    LowerOfLowercase(host);
    BlockedHostRejected("https", host, "/" + path, "t.co");
  }

  /**
    For each blocked domain, a position and a character of it that `example.it`
    lacks: `e`, `x`, `a`, `m`, `p`, `l`, `.`, `i`, `t` are all it holds.
   */
  const ExampleItMisses: seq<(nat, char)> := [
    (0, 'f'), (0, 'f'), (1, 'n'), (1, 'w'), (2, 'c'), (2, 'n'), (0, 'r'), (0, 'y'),
    (0, 'y'), (2, 'k'), (0, 'b'), (2, 'c'), (0, 'g'), (0, 'o'), (0, 's'), (2, 'n')
  ]

  /** Blocked domain number `j` does not occur in `example.it`: it has a character that host lacks. */
  lemma ExampleItMissesDomain(j: nat)
    requires j < |BlockedDomains|
    ensures !Contains("example.it", BlockedDomains[j])
  {
    var (k, c) := ExampleItMisses[j];
    assert k < |BlockedDomains[j]| && BlockedDomains[j][k] == c && c !in "example.it";
    AbsentCharNotContained("example.it", BlockedDomains[j], k, c);
  }

  /** No blocked domain occurs in `example.it`. */
  lemma ExampleItHostClean()
    ensures !ContainsAny("example.it", BlockedDomains)
  {
    forall j | 0 <= j < |BlockedDomains|
      ensures !Contains("example.it", BlockedDomains[j])
    {
      ExampleItMissesDomain(j);
    }
  }

  /**
    An `http://` or `https://` URL whose lower-cased host embeds no blocked
    domain, and holds no unmatched bracket, is accepted whatever follows the host.
   */
  lemma CleanHostAccepted(scheme: string, host: string, tail: string)
    requires scheme == "http" || scheme == "https"
    requires forall k :: 0 <= k < |host| ==> !IsNetlocDelimiter(host[k])
    requires |tail| == 0 || IsNetlocDelimiter(tail[0])
    requires !BracketsUnbalanced(host)
    requires !ContainsAny(Lower(host), BlockedDomains)
    ensures IsValidUrl(SchemeUrl(scheme, host, tail))
  {
    assert IsSchemeName(scheme);
    NetlocOfSchemeUrl(scheme, host, tail);
    var url := SchemeUrl(scheme, host, tail);
    assert url[..4] == "http";
  }

  /** `https://example.it/` is accepted. */
  lemma ExampleItAccepted()
    ensures IsValidUrl(HttpsUrl("example.it", ""))
  {
    var host := "example.it";
    ExampleItHostClean();
    LowerOfLowercase(host);
    CleanHostAccepted("https", host, "/" + "");
  }

  /**
    An `http://` or `https://` URL whose host holds an unmatched bracket, such
    as `http://[x/`, makes `is_valid_url` raise.
   */
  lemma UnbalancedBracketRaises(scheme: string, host: string, tail: string)
    requires scheme == "http" || scheme == "https"
    requires forall k :: 0 <= k < |host| ==> !IsNetlocDelimiter(host[k])
    requires |tail| == 0 || IsNetlocDelimiter(tail[0])
    requires BracketsUnbalanced(host)
    ensures ValidityRaises(SchemeUrl(scheme, host, tail))
  {
    assert IsSchemeName(scheme);
    NetlocOfSchemeUrl(scheme, host, tail);
    var url := SchemeUrl(scheme, host, tail);
    assert url[..4] == "http";
  }
}

=== FILE: wrappers.dfy ===
/** Option type shared by the model: an absent analysis, a failed fetch, a missing index. */
module Wrappers {

  datatype Option<+T> = None | Some(value: T)
}
